=== FILE: README.md ===
# Store registration and order sync — a Dafny model

This project models the store-connection core of the Order-Management-System
server and its registration form:

- `server/controllers/storeController.js`: `createStore` (field check, per-platform
  connection probe, creation of a CONNECTED store owned by the caller, duplicate
  detection), `getStores` (the caller's stores without credentials, newest first) and
  `syncStoreOrders` (owner-scoped lookup, dispatch on platform, mapping of Shopify and
  WooCommerce orders into one canonical order record, the `lastSyncAt` stamp).
- `server/models/Store.js`: the store document, its platform and status enums, the
  defaults (`status` FAILED, `lastSyncAt` null, `credentials.apiVersion` "2024-01"),
  required and trimmed fields, and the unique (platform, storeUrl, createdBy) index.
- `client/src/components/AddStoreModal.tsx`: the per-platform payload `handleSubmit`
  sends, and what the modal does with the reply.

Every handler is a pure function from a repository (`Schema.Repo`: the documents in
insertion order, the next fresh id and a logical clock) and its inputs to a new
repository and a `Result`. The network and the database are replaced by input values:
the probe reply (`Upstream.ProbeReply`), the order-fetch replies (`Upstream.Replies`),
whether the database answers reads and writes (`StoreController.Db`), and the current
time of a sync (`now`). The authenticated user is the `caller` parameter.

Files: `results.dfy` (Option, Result), `js_values.dfy` (JavaScript scalars,
truthiness, `String()`, `trim`), `schema.dfy` (Store.js and the repository invariant
`Valid`), `order_mapping.dfy` (the two order mappings), `upstream.dfy` (the outbound
requests and the reply shapes), `store_controller.dfy` (the three handlers),
`add_store_modal.dfy` (the client form).

Notable behaviours of the code, all modelled as written:

- Both platforms are strict at registration: a failed WooCommerce probe refuses the
  request with a 400 and creates nothing. No store is ever created in FAILED status
  by `createStore`; FAILED is only the schema default.
- `syncStoreOrders` never changes `status`; it only stamps `lastSyncAt`.
- The 201 reply of `createStore` is the whole created document, credentials included
  (only `getStores` strips them).
- There is no order merge, deduplication or "revenue today" computation in the code;
  the sync returns the mapped batch and nothing else.
- A request `apiVersion` of "" is stored as "" (the schema default applies only to a
  missing value) while the registration probe falls back to "2024-01" on any falsy
  version; `Upstream.ProbeAndSyncApiVersion` states exactly when the two agree. The
  client always sends "2024-01", so this cannot arise from the modal
  (`AddStoreModal.PayloadMeetsServerChecks`).
- The registration probes use the request's values as sent, while the stored document
  and so every sync use the trimmed URL, token, key and secret. A padded value can pass
  the probe and differ at every sync; `Upstream.ProbeAndSyncUrls`,
  `Upstream.ProbeAndSyncToken`, `Upstream.WooProbeAndSyncUrls` and
  `Upstream.WooProbeAndSyncKeys` state exactly when the two agree.

## Model

| member | source | states |
|---|---|---|
| `JsValues.ToText` | server/controllers/storeController.js:168-172 | a template literal prints a string as itself, `undefined` as "undefined", `null` as "null", a boolean as "true" or "false", and a number as an optional "-" followed by decimal digits without leading zeros that read back to the number |
| `JsValues.DigitsRoundTrip` | server/controllers/storeController.js:168 | the decimal rendering of a number used in `#${o.number}` reads back to the same number |
| `JsValues.TrimIsInnerSlice` | server/models/Store.js:5-21 | a trimmed field is the slice of the input between its leading and trailing white space, and neither starts nor ends with white space |
| `JsValues.TrimEmptyIffAllSpace` | server/models/Store.js:5-21 | a required trimmed field becomes empty exactly when the input is all white space |
| `JsValues.TrimIdempotent` | server/models/Store.js:8 | trimming a stored (already trimmed) value changes nothing |
| `JsValues.TrimKeepsSpaceless` | server/models/Store.js:20 | a value without white space is stored unchanged |
| `Schema.ParsePlatform` | server/models/Store.js:11-15 | the platform enum accepts exactly "shopify" and "woocommerce", each mapped to its own platform |
| `Schema.PlatformNameRoundTrip` | server/models/Store.js:14 | every platform is accepted by the enum under its stored name |
| `Schema.TrimOption` | server/models/Store.js:25-42 | an optional secret stays absent when absent and is stored trimmed when present |
| `Schema.CastCredentials` | server/models/Store.js:23-43 | a missing `apiVersion` becomes "2024-01", a present one is kept verbatim, and the three secrets are trimmed |
| `Schema.MakeRecord` | server/models/Store.js:3-65 | a document is created exactly when the trimmed name and URL are non-empty and the platform is in the enum; it is then well formed, trimmed, defaults status to FAILED, has a null `lastSyncAt` and keeps the owner |
| `Schema.EmptyRepoValid` | server/models/Store.js:70-73 | the empty collection satisfies the invariant, so the invariant describes reachable states |
| `OrderMapping.MapShopifyOrder` | server/controllers/storeController.js:132-142 | a Shopify order keeps id, name, total, financial status and creation time verbatim, is tagged "Shopify" with the store's name and id, and names the truthy first name of the customer or else "Guest" (so the customer is never falsy) |
| `OrderMapping.WooOrderNumber` | server/controllers/storeController.js:168 | a WooCommerce order label is "#" followed by the printed upstream number, which can be read back by dropping the "#" |
| `OrderMapping.MapWooOrder` | server/controllers/storeController.js:166-179 | a WooCommerce order keeps id, total, status and creation time, is tagged "WooCommerce" with the store's name and id, labels "#"+number, and names "first last" when the billing first name is truthy and "Guest" otherwise |
| `OrderMapping.MapEntries` | server/controllers/storeController.js:132 | mapping a JSON array succeeds exactly when no entry is null, and then yields one order per entry, in the same order |
| `OrderMapping.MapShopifyOrders` | server/controllers/storeController.js:132-142 | the Shopify batch has one mapped order per upstream order, in upstream order, or fails as a whole |
| `OrderMapping.MapWooOrders` | server/controllers/storeController.js:166-179 | the WooCommerce batch has one mapped order per upstream order, in upstream order, or fails as a whole |
| `OrderMapping.ShopifyBatchInvariant` | server/controllers/storeController.js:132-142 | every order of a Shopify batch carries the store's name and id, the "Shopify" tag and a truthy customer, and the i-th order has the i-th upstream id |
| `OrderMapping.WooBatchInvariant` | server/controllers/storeController.js:166-179 | every order of a WooCommerce batch carries the store's name and id, the "WooCommerce" tag and a truthy customer, with the i-th upstream id and label "#"+number |
| `Upstream.ProbeApiVersion` | server/controllers/storeController.js:19 | the probe addresses the request's version when it is non-empty and "2024-01" otherwise, so never an empty version |
| `Upstream.ShopifyOrdersPath` | server/controllers/storeController.js:118 | the order fetch path asks for the order window of 10 orders |
| `Upstream.ShopifyProbe` | server/controllers/storeController.js:18-25 | the Shopify probe reads the shop resource at the probe's API version below the URL as sent, with the token as sent as `X-Shopify-Access-Token` and no timeout; `ProbeAndSyncUrls` and `ProbeAndSyncToken` relate it to the later syncs |
| `Upstream.WooProbe` | server/controllers/storeController.js:36-45 | the WooCommerce probe reads the system-status resource below the URL as sent, with the key and secret as sent in the query and a 15000 ms timeout; `WooProbeAndSyncUrls` and `WooProbeAndSyncKeys` relate it to the later syncs |
| `Upstream.ShopifyOrdersRequest` | server/controllers/storeController.js:117-124 | the Shopify order fetch goes to the Admin API at the stored version with `limit=10` and the stored token, with no timeout |
| `Upstream.WooOrdersRequest` | server/controllers/storeController.js:147-158 | the WooCommerce order fetch reads the orders resource below the stored URL, with the stored key and secret, `per_page` 10 and `order` "desc" in the query and a 15000 ms timeout |
| `Upstream.ProbeAndSyncUrls` | server/controllers/storeController.js:18-19 | for a document stored from a request, the registration probe (line 19, the URL as sent) read the shop resource at the Admin API root every sync of it uses (line 118, the trimmed URL and the stored version) exactly when the URL was sent already trimmed and the version was not "" |
| `Upstream.ShopUrlsAgree` | server/models/Store.js:17-21 | the shop resource below a URL and below its trimmed form coincide exactly when trimming changed nothing and the versions are equal |
| `Upstream.ProbeAndSyncToken` | server/controllers/storeController.js:20-24 | the access-token header of the probe (the token as sent) equals that of every sync (line 121, the stored token) exactly when the token was sent already trimmed |
| `Upstream.WooProbeAndSyncUrls` | server/controllers/storeController.js:36-38 | the WooCommerce probe (the URL as sent) and every sync (line 148, the trimmed URL) address the same REST API root exactly when the URL was sent already trimmed |
| `Upstream.WooProbeAndSyncKeys` | server/controllers/storeController.js:38-42 | the probe's key and secret (as sent) are those every sync sends (lines 151-152, as stored) exactly when both were sent already trimmed |
| `Upstream.ProbeAndSyncApiVersion` | server/controllers/storeController.js:18-19 | the registration probe and later syncs (line 118) address the same Shopify API version exactly when the request did not send an empty version |
| `StoreController.CreateErrorResponse` | server/controllers/storeController.js:11-77 | missing fields, a failed probe and a duplicate are 400s with their own messages; every other failure is a 500 "Server error" |
| `StoreController.ProbeGate` | server/controllers/storeController.js:16-55 | registration passes the probe gate exactly when a "shopify" request got any 2xx answer and a "woocommerce" request got a truthy body with `environment`; other platform names are not probed |
| `StoreController.Insert` | server/controllers/storeController.js:57-77 | `Store.create` appends exactly the validated record with a fresh id, or, with the repository unchanged, fails validation, storage, or the unique index (the last and only the last as "already exists") |
| `StoreController.CreateStore` | server/controllers/storeController.js:7-79 | any refusal leaves the repository unchanged; missing fields are refused exactly when a field is falsy; each platform's connection error happens exactly when that platform's probe failed; a 500 happens exactly when the probe gate passed and validation (for example a white-space-only name or URL) or storage failed; success happens exactly when fields, probe, validation, storage and uniqueness all pass, and appends one CONNECTED, never-synced store owned by the caller with trimmed name and URL; "already exists" happens exactly when the caller owns the same (platform, trimmed URL) |
| `StoreController.KeyTakenIffOwnsSameStore` | server/models/Store.js:70-73 | the unique-index key of the new record is taken exactly when the caller already owns a store with the same platform and trimmed URL |
| `StoreController.CreateResponse` | server/controllers/storeController.js:66-77 | the reply status is 2xx exactly for a created store, 201 in that case, and an error reply carries the error's status (400, or 500 for a server error) and message |
| `StoreController.AppendPreservesValid` | server/models/Store.js:70-73 | appending a fresh, well-formed record whose index key is free keeps ids, creation order and the unique index intact |
| `StoreController.CreatePreservesValid` | server/models/Store.js:70-73 | registration never puts two documents with the same (platform, storeUrl, createdBy) in the collection, and keeps every other part of the invariant |
| `StoreController.SecondRegistrationIsDuplicate` | server/controllers/storeController.js:68-72 | once a registration succeeded, the same request by the same caller, provided the second probe passes too, is refused as "already exists" and changes nothing |
| `StoreController.StoreListedOnlyToOwner` | server/controllers/storeController.js:86 | every stored document, so also one `CreateStore` just appended, is listed to its owner and to no other user |
| `StoreController.ViewDropsOnlyCredentials` | server/controllers/storeController.js:87 | two stores list the same exactly when they differ at most in their credentials |
| `StoreController.OwnedViews` | server/controllers/storeController.js:86 | the owner filter keeps every store of the caller and nothing of anyone else |
| `StoreController.InsertByAge` | server/controllers/storeController.js:88 | inserting into a newest-first list keeps it newest-first and adds exactly that one view |
| `StoreController.NoNewerThanHead` | server/controllers/storeController.js:88 | in a newest-first list no view is newer than the first one |
| `StoreController.SortNewestFirst` | server/controllers/storeController.js:88 | the listing order is a permutation of its input sorted by creation time, newest first |
| `StoreController.GetStores` | server/controllers/storeController.js:84-97 | the listing contains exactly the caller's stores (as a multiset of the owner filter), without credentials, newest first, and is a 500 "Server error" exactly when the database cannot be read |
| `StoreController.OwnedViewsNoRepeats` | server/controllers/storeController.js:86 | when ids are distinct, the owner filter lists every document at most once and only documents of the collection |
| `StoreController.ListingHasNoRepeats` | server/controllers/storeController.js:86-88 | under the collection invariant every store of the caller appears in the listing exactly once |
| `StoreController.SyncErrorResponse` | server/controllers/storeController.js:109-111 | an unknown or foreign store is a 404 "Store not found"; every other sync failure is a 500 "Order sync failed" (lines 191-196) |
| `StoreController.FindOwnedFrom` | server/controllers/storeController.js:104-107 | the lookup returns the first document with this id and this owner, or none exactly when no such document exists |
| `StoreController.FindOwned` | server/controllers/storeController.js:104-107 | the lookup by (id, owner) finds a document with that id owned by the caller, or none exactly when the caller owns no such store |
| `StoreController.FetchOrders` | server/controllers/storeController.js:113-180 | the store's own platform reply decides the sync: it succeeds exactly when that reply is an orders array with no null entry, and the success is the mapped batch of that platform; a failed or non-ok request is a fetch failure, a body that is not JSON or has no orders array is a payload failure, a null entry fails the whole batch |
| `StoreController.SyncedOrdersFromStore` | server/controllers/storeController.js:140-141 | every order a sync returns carries the synced store's name and id |
| `StoreController.SyncStoreOrders` | server/controllers/storeController.js:102-197 | any failure leaves the repository unchanged; 404 exactly when the caller owns no store with that id; success exactly when lookup, fetch, mapping and save succeed, and then only that store's `lastSyncAt` becomes `now` and the reply names the store and returns and counts exactly the mapped upstream batch |
| `StoreController.OtherOwnersStoreIsNotFound` | server/controllers/storeController.js:104-111 | when the database can be read, syncing another user's store is a 404 that changes nothing and returns nothing of that store |
| `StoreController.SyncChangesOnlyLastSyncAt` | server/controllers/storeController.js:182-183 | a successful sync changes no field other than `lastSyncAt`, and that only on the caller's store with the requested id |
| `StoreController.SyncReadsOnlyOwnPlatform` | server/controllers/storeController.js:116-146 | a sync's outcome does not depend on the reply of the other platform |
| `StoreController.StampPreservesValid` | server/controllers/storeController.js:182-183 | stamping `lastSyncAt` keeps the collection invariant |
| `StoreController.SyncPreservesValid` | server/models/Store.js:70-73 | a sync keeps the collection invariant, including the unique index |
| `AddStoreModal.InitialFormIsShopify` | client/src/components/AddStoreModal.tsx:8 | an untouched form submits a Shopify request |
| `AddStoreModal.BuildPayload` | client/src/components/AddStoreModal.tsx:24-43 | platform, name and URL pass through; Shopify credentials are exactly the token and "2024-01", WooCommerce credentials exactly the key and secret |
| `AddStoreModal.PayloadMeetsServerChecks` | client/src/components/AddStoreModal.tsx:24-43 | a form with a name and URL always passes the server's missing-fields check, names a valid platform, and stores exactly the API version the probe used ("2024-01") |
| `AddStoreModal.ErrorText` | client/src/components/AddStoreModal.tsx:61-63 | the error shown is the reply's message when truthy and "Failed to add store" otherwise, never empty |
| `AddStoreModal.SubmitEffects` | client/src/components/AddStoreModal.tsx:60-70 | `onSuccess(data)` then `onClose()` happen exactly for an ok JSON reply; otherwise the only effect is one alert, with the server's message or the fallback for an error reply |
| `AddStoreModal.SubmitAgreesWithServer` | client/src/components/AddStoreModal.tsx:60-70 | the modal closes exactly when the server created the store, and otherwise alerts exactly the server's error message |

## Left out

- The HTTP calls to Shopify and WooCommerce, their timeouts and JSON parsing: the
  replies are input values. `Upstream` only describes the requests (URL, headers,
  query, timeout), including the fixed window of 10 orders.
- Mongoose persistence, ObjectIds and `Date.now()`: ids are fresh naturals, creation
  times are ticks of a logical clock, and the time of a sync is a parameter.
- The `updatedAt` timestamp Mongoose also maintains; "only `lastSyncAt` changes"
  is stated of the modelled fields.
- The `error` text of 500 replies (the thrown exception's message): a sync failure
  carries a typed cause (`SyncFault`) and a creation failure a `Fault` instead.
- Casting of non-string request values (numbers, objects, `null`) by Mongoose: request
  fields are absent or strings. JSON values in orders are scalars; numbers are
  integers, so floating-point ids and totals are not modelled.
- The fall-through of the sync for an unknown platform (neither `if` of lines 116 and
  146 taken, so an empty batch would be stamped and returned): the platform enum
  makes it unreachable in stored documents.
- Monetary totals, statuses and timestamps of orders: passed through verbatim with no
  arithmetic.
- Order merge, deduplication and "orders today": not present in the code; the home
  page's figures are hard-coded.
- Concurrency between simultaneous syncs (no locking in the code).
- Authentication and the JWT middleware: the caller is a parameter.
- The browser's `required` input check in the modal: `PayloadMeetsServerChecks`
  assumes what it enforces (a non-empty name and URL) as its precondition.
- UI rendering, routing and the other pages.
- `StoreController.GetStores`: the database's order among stores with equal creation
  times is unspecified; the model picks one order, and under the collection invariant
  creation times are distinct, so there are no ties.
- `JsValues.ToText`: numbers are written in plain decimal at every magnitude, while
  JavaScript switches to exponent form ("1e+21") from 10^21 on and loses exactness
  above 2^53; order numbers of that size are not modelled.

=== FILE: add_store_modal.dfy ===
/**
 * The client side of store registration (client/src/components/AddStoreModal.tsx):
 * the form state, the per-platform payload `handleSubmit` sends to the
 * store-creation endpoint, and what the modal does with the reply.
 */
module AddStoreModal {
  import opened Results
  import opened JsValues
  import opened Schema
  import opened StoreController
  import opened Upstream

  /** The modal's form state. */
  datatype Form = Form(
    platform: Platform,
    storeName: string,
    storeUrl: string,
    accessToken: string,
    consumerKey: string,
    consumerSecret: string)

  /** The state the modal opens with: Shopify selected, every input empty. */
  const InitialForm: Form := Form(Shopify, "", "", "", "", "")

  /** A form submitted untouched asks for a Shopify store. */
  lemma InitialFormIsShopify()
    ensures BuildPayload(InitialForm).platform == Some("shopify")
    ensures BuildPayload(InitialForm).credentials.value.accessToken == Some("")
  {
  }

  /** The API version the client always sends for Shopify. */
  const ClientApiVersion: string := "2024-01"

  /**
   * The request body: platform, name and URL pass through unchanged; the
   * credentials are the access token with the fixed API version for Shopify,
   * and the consumer key and secret for WooCommerce, and nothing else.
   */
  function BuildPayload(f: Form): (r: CreateRequest)
    ensures r.platform == Some(PlatformName(f.platform))
    ensures r.name == Some(f.storeName) && r.storeUrl == Some(f.storeUrl)
    ensures r.credentials.Some?
    ensures f.platform == Shopify ==>
      r.credentials.value == RawCredentials(Some(f.accessToken), Some(ClientApiVersion), None, None)
    ensures f.platform == WooCommerce ==>
      r.credentials.value == RawCredentials(None, None, Some(f.consumerKey), Some(f.consumerSecret))
  {
    var credentials :=
      if f.platform == Shopify then RawCredentials(Some(f.accessToken), Some(ClientApiVersion), None, None)
      else RawCredentials(None, None, Some(f.consumerKey), Some(f.consumerSecret));
    CreateRequest(Some(PlatformName(f.platform)), Some(f.storeName), Some(f.storeUrl), Some(credentials))
  }

  /**
   * What the server makes of a payload: a form with a non-empty name and URL
   * always passes the missing-fields check, names a valid platform, and, for
   * Shopify, stores the same API version the registration probe addressed.
   */
  lemma PayloadMeetsServerChecks(f: Form)
    requires f.storeName != "" && f.storeUrl != ""
    ensures HasRequiredFields(BuildPayload(f))
    ensures ParsePlatform(BuildPayload(f).platform.value) == Some(f.platform)
    ensures f.platform == Shopify ==>
      CastCredentials(BuildPayload(f).credentials.value).apiVersion == ProbeApiVersion(BuildPayload(f).credentials.value)
      == DefaultApiVersion
  {
    PlatformNameRoundTrip(f.platform);
  }

  /** The body of the reply as `res.json()` reads it: not JSON, or an object with its `message`. */
  datatype Body = Unparsable(reason: string) | Json(message: Value)

  /** The outcome of the POST: the request itself failed, or a reply with `res.ok` and a body. */
  datatype Reply = NetworkFailure(reason: string) | Received(ok: bool, body: Body)

  /** The modal's observable effects, in the order they happen. */
  datatype Effect = OnSuccess(data: Body) | OnClose | Alert(text: string)

  /** The text shown when an error reply carries no message. */
  const FallbackError: string := "Failed to add store"

  /** `data.message || "Failed to add store"`, as the text of the thrown error. */
  function ErrorText(message: Value): (r: string)
    ensures Truthy(message) ==> r == ToText(message)
    ensures !Truthy(message) ==> r == FallbackError
    ensures r != ""
  {
    if Truthy(message) then
      assert message.Num? ==> |ToText(message)| >= 1;
      ToText(message)
    else FallbackError
  }

  /**
   * `handleSubmit` after the payload is built. The parent is notified and the modal
   * closed, in that order, exactly when the reply is ok and its body is JSON; in
   * every other case the only effect is one alert, and for a JSON error reply it
   * shows the server's message or the fallback text.
   */
  function SubmitEffects(reply: Reply): (r: seq<Effect>)
    ensures OnClose in r <==> reply.Received? && reply.ok && reply.body.Json?
    ensures OnClose in r ==> r == [OnSuccess(reply.body), OnClose]
    ensures OnClose !in r ==> |r| == 1 && r[0].Alert?
    ensures reply.Received? && !reply.ok && reply.body.Json? ==> r == [Alert(ErrorText(reply.body.message))]
  {
    match reply
    case NetworkFailure(reason) => [Alert(reason)]
    case Received(ok, body) =>
      match body
      case Unparsable(reason) => [Alert(reason)]
      case Json(message) => if !ok then [Alert(ErrorText(message))] else [OnSuccess(body), OnClose]
  }

  /** The reply the modal receives for a server-side creation result. */
  function ReplyFor(result: Result<Store, CreateError>): Reply
  {
    var (status, message) := CreateResponse(result);
    Received(200 <= status < 300, Json(message))
  }

  /**
   * Client and server agree: the modal closes exactly when the server created the
   * store, and otherwise alerts exactly the server's error message.
   */
  lemma SubmitAgreesWithServer(result: Result<Store, CreateError>)
    ensures OnClose in SubmitEffects(ReplyFor(result)) <==> result.Ok?
    ensures result.Err? ==> SubmitEffects(ReplyFor(result)) == [Alert(CreateErrorResponse(result.error).message)]
  {
    if result.Err? {
      var m := CreateErrorResponse(result.error).message;
      assert m != "";
      assert ReplyFor(result) == Received(false, Json(Text(m)));
    }
  }
}

=== FILE: js_values.dfy ===
/**
 * The small part of JavaScript value semantics the store controller and the
 * client depend on: scalar JSON values, truthiness (`!x`, `x || y`, `x ? a : b`),
 * conversion to text (`String(x)` and template literals) and `String.prototype.trim`.
 */
module JsValues {

  /** A scalar JavaScript value as it arrives in a parsed JSON body. Numbers are integral. */
  datatype Value = Undefined | Null | Bool(b: bool) | Num(n: int) | Text(s: string)

  /** JavaScript truthiness of a scalar: `undefined`, `null`, `false`, `0` and `""` are falsy. */
  predicate Truthy(v: Value) {
    match v
    case Undefined => false
    case Null => false
    case Bool(b) => b
    case Num(n) => n != 0
    case Text(s) => s != ""
  }

  /** The character of a decimal digit. */
  function DigitChar(d: nat): (c: char)
    requires d < 10
    ensures '0' <= c <= '9'
    ensures c as int - '0' as int == d
  {
    ['0', '1', '2', '3', '4', '5', '6', '7', '8', '9'][d]
  }

  /** The decimal digits of a natural number, most significant first, without leading zeros. */
  function Digits(n: nat): (r: string)
    ensures |r| >= 1
    ensures forall i :: 0 <= i < |r| ==> '0' <= r[i] <= '9'
    ensures |r| > 1 ==> r[0] != '0'
    decreases n
  {
    if n < 10 then [DigitChar(n)] else Digits(n / 10) + [DigitChar(n % 10)]
  }

  /** Reads back a string of decimal digits; the reference definition that `Digits` inverts. */
  function DigitsValue(s: string): int
  {
    if s == [] then 0 else DigitsValue(s[..|s| - 1]) * 10 + (s[|s| - 1] as int - '0' as int)
  }

  /** Rendering a number and reading its digits back gives the number again. */
  lemma {:induction false} DigitsRoundTrip(n: nat)
    ensures DigitsValue(Digits(n)) == n
    decreases n
  {
    if n >= 10 {
      var d := Digits(n / 10) + [DigitChar(n % 10)];
      assert d[..|d| - 1] == Digits(n / 10);
      DigitsRoundTrip(n / 10);
    }
  }

  /**
   * `String(v)`, which is also what a template literal `${v}` produces. Numbers are
   * written in plain decimal notation, as JavaScript does below 10^21.
   */
  function ToText(v: Value): (r: string)
    ensures v.Text? ==> r == v.s
    ensures v.Undefined? ==> r == "undefined"
    ensures v.Null? ==> r == "null"
    ensures v.Bool? ==> r == (if v.b then "true" else "false")
    ensures v.Num? && v.n >= 0 ==> DigitsValue(r) == v.n
    ensures v.Num? && v.n < 0 ==> |r| > 1 && r[0] == '-' && DigitsValue(r[1..]) == -v.n
    ensures v.Num? ==>
      var digits := if v.n >= 0 then r else r[1..];
      && |digits| >= 1
      && (forall i :: 0 <= i < |digits| ==> '0' <= digits[i] <= '9')
      && (|digits| > 1 ==> digits[0] != '0')
  {
    match v
    case Undefined => "undefined"
    case Null => "null"
    case Bool(b) => if b then "true" else "false"
    case Num(n) =>
      DigitsRoundTrip(if n >= 0 then n else -n);
      if n >= 0 then Digits(n) else "-" + Digits(-n)
    case Text(s) => s
  }

  /** The characters `String.prototype.trim` removes: ECMAScript WhiteSpace and LineTerminator. */
  predicate IsSpace(c: char) {
    || c in {' ', '\t', '\n', '\r', '\U{000B}', '\U{000C}', '\U{00A0}', '\U{1680}'}
    || ('\U{2000}' <= c <= '\U{200A}')
    || c in {'\U{2028}', '\U{2029}', '\U{202F}', '\U{205F}', '\U{3000}', '\U{FEFF}'}
  }

  /** Drops leading white space. */
  function TrimStart(s: string): (r: string)
    ensures |r| <= |s| && r == s[|s| - |r|..]
    ensures forall i :: 0 <= i < |s| - |r| ==> IsSpace(s[i])
    ensures r != [] ==> !IsSpace(r[0])
  {
    if s != [] && IsSpace(s[0]) then TrimStart(s[1..]) else s
  }

  /** Drops trailing white space. */
  function TrimEnd(s: string): (r: string)
    ensures |r| <= |s| && r == s[..|r|]
    ensures forall i :: |r| <= i < |s| ==> IsSpace(s[i])
    ensures r != [] ==> !IsSpace(r[|r| - 1])
  {
    if s != [] && IsSpace(s[|s| - 1]) then TrimEnd(s[..|s| - 1]) else s
  }

  /** `s.trim()`. */
  function Trim(s: string): string
  {
    TrimEnd(TrimStart(s))
  }

  /** The number of leading white-space characters `Trim` removes. */
  function TrimOffset(s: string): nat
  {
    |s| - |TrimStart(s)|
  }

  /**
   * `Trim(s)` is the slice of `s` between its leading and trailing white space:
   * everything cut off is white space, and the slice itself neither starts nor
   * ends with white space.
   */
  lemma TrimIsInnerSlice(s: string)
    ensures TrimOffset(s) + |Trim(s)| <= |s|
    ensures s[TrimOffset(s)..TrimOffset(s) + |Trim(s)|] == Trim(s)
    ensures forall i :: 0 <= i < TrimOffset(s) ==> IsSpace(s[i])
    ensures forall i :: TrimOffset(s) + |Trim(s)| <= i < |s| ==> IsSpace(s[i])
    ensures Trim(s) != [] ==> !IsSpace(Trim(s)[0]) && !IsSpace(Trim(s)[|Trim(s)| - 1])
  {
    var a := TrimStart(s);
    var r := TrimEnd(a);
    assert a == s[TrimOffset(s)..];
    assert r == a[..|r|];
    if r != [] {
      assert r[0] == a[0];
    }
  }

  /** `Trim` is empty exactly when the string is all white space. */
  lemma TrimEmptyIffAllSpace(s: string)
    ensures Trim(s) == [] <==> forall i :: 0 <= i < |s| ==> IsSpace(s[i])
  {
    TrimIsInnerSlice(s);
    if Trim(s) == [] {
      forall i | 0 <= i < |s| ensures IsSpace(s[i]) {
        if i < TrimOffset(s) {
        } else {
          assert TrimOffset(s) + |Trim(s)| <= i;
        }
      }
    } else {
      var k := TrimOffset(s);
      assert s[k] == Trim(s)[0];
    }
  }

  /** Trimming twice is the same as trimming once: a stored trimmed field is a fixed point. */
  lemma TrimIdempotent(s: string)
    ensures Trim(Trim(s)) == Trim(s)
  {
    TrimIsInnerSlice(s);
    var t := Trim(s);
    assert TrimStart(t) == t;
    assert TrimEnd(t) == t;
  }

  /** A string of non-white-space characters is unchanged by `Trim`. */
  lemma TrimKeepsSpaceless(s: string)
    requires forall i :: 0 <= i < |s| ==> !IsSpace(s[i])
    ensures Trim(s) == s
  {
    assert TrimStart(s) == s;
    assert TrimEnd(s) == s;
  }
}

=== FILE: order_mapping.dfy ===
/**
 * The translation of each platform's raw order into the canonical order record
 * returned by the sync endpoint (server/controllers/storeController.js, the two
 * `.map` callbacks of `syncStoreOrders`).
 */
module OrderMapping {
  import opened Results
  import opened JsValues
  import opened Schema

  /** `o.customer` of a Shopify order; `None` when absent, null or not an object. */
  datatype ShopifyCustomer = ShopifyCustomer(firstName: Value)

  /** The fields of a Shopify order the mapping reads. */
  datatype ShopifyOrder = ShopifyOrder(
    id: Value,
    name: Value,
    customer: Option<ShopifyCustomer>,
    totalPrice: Value,
    financialStatus: Value,
    createdAt: Value)

  /** `o.billing` of a WooCommerce order; `None` when absent, null or not an object. */
  datatype WooBilling = WooBilling(firstName: Value, lastName: Value)

  /** The fields of a WooCommerce order the mapping reads. */
  datatype WooOrder = WooOrder(
    id: Value,
    number: Value,
    billing: Option<WooBilling>,
    total: Value,
    status: Value,
    dateCreated: Value)

  /** The canonical order record. Money, status and timestamps are carried verbatim. */
  datatype Order = Order(
    id: Value,
    orderNumber: Value,
    platform: string,
    customer: Value,
    total: Value,
    status: Value,
    createdAt: Value,
    store: string,
    storeId: StoreId)

  /** The fixed platform tags of canonical orders. */
  const ShopifyTag: string := "Shopify"
  const WooTag: string := "WooCommerce"

  /** The customer shown when the upstream order names none. */
  const Guest: string := "Guest"

  /** True when the order is tagged with the given store's name and id. */
  predicate FromStore(o: Order, s: Store)
  {
    o.store == s.name && o.storeId == s.id
  }

  /**
   * One Shopify order: `customer` is the first name when it is truthy and
   * "Guest" otherwise; every other upstream field is carried through verbatim.
   */
  function MapShopifyOrder(s: Store, o: ShopifyOrder): (r: Order)
    ensures FromStore(r, s) && r.platform == ShopifyTag
    ensures r.id == o.id && r.orderNumber == o.name && r.total == o.totalPrice
    ensures r.status == o.financialStatus && r.createdAt == o.createdAt
    ensures Truthy(r.customer)
    ensures o.customer.Some? && Truthy(o.customer.value.firstName) ==> r.customer == o.customer.value.firstName
    ensures (o.customer.None? || !Truthy(o.customer.value.firstName)) ==> r.customer == Text(Guest)
  {
    var customer :=
      match o.customer
      case Some(c) => if Truthy(c.firstName) then c.firstName else Text(Guest)
      case None => Text(Guest);
    Order(o.id, o.name, ShopifyTag, customer, o.totalPrice, o.financialStatus, o.createdAt, s.name, s.id)
  }

  /** `"#" + number` as the label of a WooCommerce order. */
  function WooOrderNumber(number: Value): (r: string)
    ensures |r| >= 1 && r[0] == '#'
    ensures r[1..] == ToText(number)
  {
    "#" + ToText(number)
  }

  /**
   * One WooCommerce order: the label is "#" followed by the upstream number,
   * `customer` is "first last" when the billing first name is truthy (an absent
   * last name prints as "undefined") and "Guest" otherwise.
   */
  function MapWooOrder(s: Store, o: WooOrder): (r: Order)
    ensures FromStore(r, s) && r.platform == WooTag
    ensures r.id == o.id && r.total == o.total && r.status == o.status && r.createdAt == o.dateCreated
    ensures r.orderNumber.Text? && |r.orderNumber.s| >= 1 && r.orderNumber.s[0] == '#' && r.orderNumber.s[1..] == ToText(o.number)
    ensures Truthy(r.customer) && r.customer.Text?
    ensures o.billing.Some? && Truthy(o.billing.value.firstName) ==>
      var first := ToText(o.billing.value.firstName);
      && |r.customer.s| > |first|
      && r.customer.s[..|first|] == first
      && r.customer.s[|first|] == ' '
      && r.customer.s[|first| + 1..] == ToText(o.billing.value.lastName)
    ensures (o.billing.None? || !Truthy(o.billing.value.firstName)) ==> r.customer == Text(Guest)
  {
    var customer :=
      match o.billing
      case Some(b) =>
        if Truthy(b.firstName) then Text(ToText(b.firstName) + " " + ToText(b.lastName)) else Text(Guest)
      case None => Text(Guest);
    Order(o.id, Text(WooOrderNumber(o.number)), WooTag, customer, o.total, o.status, o.dateCreated, s.name, s.id)
  }

  /**
   * `entries.map(f)` over a JSON array whose entries may be null: reading a
   * field of a null entry throws, so the whole batch fails (`None`) when any
   * entry is missing; otherwise the result has one mapped order per entry, in order.
   */
  function MapEntries<T>(entries: seq<Option<T>>, f: T -> Order): (r: Option<seq<Order>>)
    ensures r.Some? <==> forall i :: 0 <= i < |entries| ==> entries[i].Some?
    ensures r.Some? ==> |r.value| == |entries|
    ensures r.Some? ==> forall i :: 0 <= i < |entries| ==> r.value[i] == f(entries[i].value)
  {
    if entries == [] then Some([])
    else
      match entries[0]
      case None => None
      case Some(o) =>
        match MapEntries(entries[1..], f)
        case None => None
        case Some(rest) => Some([f(o)] + rest)
  }

  /** The Shopify batch: `data.orders.map(...)`. */
  function MapShopifyOrders(s: Store, entries: seq<Option<ShopifyOrder>>): (r: Option<seq<Order>>)
    ensures r.Some? <==> forall i :: 0 <= i < |entries| ==> entries[i].Some?
    ensures r.Some? ==> |r.value| == |entries|
    ensures r.Some? ==> forall i :: 0 <= i < |entries| ==> r.value[i] == MapShopifyOrder(s, entries[i].value)
  {
    MapEntries(entries, o => MapShopifyOrder(s, o))
  }

  /** The WooCommerce batch: `response.data.map(...)`. */
  function MapWooOrders(s: Store, entries: seq<Option<WooOrder>>): (r: Option<seq<Order>>)
    ensures r.Some? <==> forall i :: 0 <= i < |entries| ==> entries[i].Some?
    ensures r.Some? ==> |r.value| == |entries|
    ensures r.Some? ==> forall i :: 0 <= i < |entries| ==> r.value[i] == MapWooOrder(s, entries[i].value)
  {
    MapEntries(entries, o => MapWooOrder(s, o))
  }

  /** True when every order of a batch is tagged with the store and the platform tag. */
  predicate BatchOf(orders: seq<Order>, s: Store, tag: string)
  {
    forall i :: 0 <= i < |orders| ==> FromStore(orders[i], s) && orders[i].platform == tag && Truthy(orders[i].customer)
  }

  /**
   * A mapped Shopify batch keeps the upstream order (the i-th order is the i-th
   * upstream order, ids preserved) and every order carries the store's name, id
   * and the "Shopify" tag.
   */
  lemma ShopifyBatchInvariant(s: Store, entries: seq<Option<ShopifyOrder>>)
    requires MapShopifyOrders(s, entries).Some?
    ensures BatchOf(MapShopifyOrders(s, entries).value, s, ShopifyTag)
    ensures forall i :: 0 <= i < |entries| ==> MapShopifyOrders(s, entries).value[i].id == entries[i].value.id
  {
    var r := MapShopifyOrders(s, entries).value;
    forall i | 0 <= i < |r|
      ensures FromStore(r[i], s) && r[i].platform == ShopifyTag && Truthy(r[i].customer)
    {
      assert r[i] == MapShopifyOrder(s, entries[i].value);
    }
  }

  /**
   * A mapped WooCommerce batch keeps the upstream order, every order carries the
   * store's name, id and the "WooCommerce" tag, and every label is "#" + number.
   */
  lemma WooBatchInvariant(s: Store, entries: seq<Option<WooOrder>>)
    requires MapWooOrders(s, entries).Some?
    ensures BatchOf(MapWooOrders(s, entries).value, s, WooTag)
    ensures forall i :: 0 <= i < |entries| ==>
      MapWooOrders(s, entries).value[i].id == entries[i].value.id &&
      MapWooOrders(s, entries).value[i].orderNumber == Text("#" + ToText(entries[i].value.number))
  {
    var r := MapWooOrders(s, entries).value;
    forall i | 0 <= i < |r|
      ensures FromStore(r[i], s) && r[i].platform == WooTag && Truthy(r[i].customer)
    {
      assert r[i] == MapWooOrder(s, entries[i].value);
    }
  }
}

=== FILE: results.dfy ===
/** Option and Result datatypes shared by every module of the model. */
module Results {

  /** A value that may be absent: a JSON field that was not sent, a lookup that found nothing. */
  datatype Option<+T> = None | Some(value: T)

  /** The outcome of an operation that either produces a value or fails with an error. */
  datatype Result<+T, +E> = Ok(value: T) | Err(error: E)
}

=== FILE: schema.dfy ===
/**
 * The store record of server/models/Store.js: its enums, defaults, required
 * and trimmed fields, and the unique (platform, storeUrl, createdBy) index,
 * together with the in-memory repository that stands in for the collection.
 */
module Schema {
  import opened Results
  import opened JsValues

  /** Owner and store identities are opaque; a natural number stands in for an ObjectId. */
  type UserId = nat
  type StoreId = nat
  /** Instants are ticks of a logical clock. */
  type Time = nat

  /** The `platform` enum. */
  datatype Platform = Shopify | WooCommerce

  /** The `status` enum. */
  datatype Status = Connected | Failed

  /** The API version a Shopify store is given when none was sent. */
  const DefaultApiVersion: string := "2024-01"

  /** The text stored for a platform. */
  function PlatformName(p: Platform): string
  {
    match p
    case Shopify => "shopify"
    case WooCommerce => "woocommerce"
  }

  /** The enum validator: only the two listed names are platforms. */
  function ParsePlatform(s: string): (r: Option<Platform>)
    ensures r.Some? ==> PlatformName(r.value) == s
    ensures (exists p :: PlatformName(p) == s) ==> r.Some?
  {
    if s == "shopify" then Some(Shopify)
    else if s == "woocommerce" then Some(WooCommerce)
    else None
  }

  /** Every platform passes the enum validator under its own name. */
  lemma PlatformNameRoundTrip(p: Platform)
    ensures ParsePlatform(PlatformName(p)) == Some(p)
  {
  }

  /** The credential bundle as a request carries it: every field may be absent. */
  datatype RawCredentials = RawCredentials(
    accessToken: Option<string>,
    apiVersion: Option<string>,
    consumerKey: Option<string>,
    consumerSecret: Option<string>)

  /** The credential sub-document as stored: `apiVersion` always has a value once defaults apply. */
  datatype Credentials = Credentials(
    accessToken: Option<string>,
    apiVersion: string,
    consumerKey: Option<string>,
    consumerSecret: Option<string>)

  /** A store document. */
  datatype Store = Store(
    id: StoreId,
    name: string,
    platform: Platform,
    storeUrl: string,
    credentials: Credentials,
    status: Status,
    lastSyncAt: Option<Time>,
    createdBy: UserId,
    createdAt: Time)

  /** The fields handed to `Store.create`, before casting, defaults and validation. */
  datatype RecordFields = RecordFields(
    name: string,
    platform: string,
    storeUrl: string,
    credentials: RawCredentials,
    status: Option<Status>,
    createdBy: UserId)

  /** The key of the unique index. */
  datatype StoreKey = StoreKey(platform: Platform, storeUrl: string, createdBy: UserId)

  function KeyOf(s: Store): StoreKey
  {
    StoreKey(s.platform, s.storeUrl, s.createdBy)
  }

  /** True when an optional text field holds a trimmed value (or none). */
  predicate TrimmedOption(o: Option<string>)
  {
    o.Some? ==> Trim(o.value) == o.value
  }

  /** The `trim: true` setter on an optional text field. */
  function TrimOption(o: Option<string>): (r: Option<string>)
    ensures r.Some? <==> o.Some?
    ensures o.Some? ==> r.value == Trim(o.value)
    ensures TrimmedOption(r)
  {
    match o
    case None => None
    case Some(s) => TrimIdempotent(s); Some(Trim(s))
  }

  /** What casting and validation guarantee of every stored document. */
  predicate WellFormed(s: Store)
  {
    && s.name != "" && Trim(s.name) == s.name
    && s.storeUrl != "" && Trim(s.storeUrl) == s.storeUrl
    && TrimmedOption(s.credentials.accessToken)
    && TrimmedOption(s.credentials.consumerKey)
    && TrimmedOption(s.credentials.consumerSecret)
  }

  /** Casting of the credential sub-document: trims the secrets and applies the `apiVersion` default. */
  function CastCredentials(c: RawCredentials): (r: Credentials)
    ensures c.apiVersion.None? ==> r.apiVersion == DefaultApiVersion
    ensures c.apiVersion.Some? ==> r.apiVersion == c.apiVersion.value
    ensures r.accessToken == TrimOption(c.accessToken)
    ensures r.consumerKey == TrimOption(c.consumerKey)
    ensures r.consumerSecret == TrimOption(c.consumerSecret)
  {
    Credentials(
      TrimOption(c.accessToken),
      match c.apiVersion case Some(v) => v case None => DefaultApiVersion,
      TrimOption(c.consumerKey),
      TrimOption(c.consumerSecret))
  }

  /**
   * `new Store(fields)` followed by validation: trims `name` and `storeUrl`,
   * checks the required fields and the platform enum, and applies the defaults
   * (`status` FAILED, `lastSyncAt` null). `None` is a validation error.
   */
  function MakeRecord(id: StoreId, createdAt: Time, f: RecordFields): (r: Option<Store>)
    ensures r.Some? <==> Trim(f.name) != "" && Trim(f.storeUrl) != "" && ParsePlatform(f.platform).Some?
    ensures r.Some? ==> WellFormed(r.value)
    ensures r.Some? ==> r.value.id == id && r.value.createdAt == createdAt && r.value.createdBy == f.createdBy
    ensures r.Some? ==> r.value.name == Trim(f.name) && r.value.storeUrl == Trim(f.storeUrl)
    ensures r.Some? ==> PlatformName(r.value.platform) == f.platform
    ensures r.Some? ==> r.value.credentials == CastCredentials(f.credentials)
    ensures r.Some? && f.status.None? ==> r.value.status == Failed
    ensures r.Some? && f.status.Some? ==> r.value.status == f.status.value
    ensures r.Some? ==> r.value.lastSyncAt.None?
  {
    var name := Trim(f.name);
    var url := Trim(f.storeUrl);
    match ParsePlatform(f.platform)
    case None => None
    case Some(p) =>
      if name == "" || url == "" then None
      else
        TrimIdempotent(f.name);
        TrimIdempotent(f.storeUrl);
        Some(Store(id, name, p, url, CastCredentials(f.credentials),
                   match f.status case Some(st) => st case None => Failed,
                   None, f.createdBy, createdAt))
  }

  /** The collection: documents in insertion order, the next fresh id and the logical clock. */
  datatype Repo = Repo(stores: seq<Store>, nextId: StoreId, clock: Time)

  /** The empty collection. */
  const EmptyRepo: Repo := Repo([], 0, 0)

  /** True when some document already holds this index key. */
  predicate KeyTaken(stores: seq<Store>, k: StoreKey)
  {
    exists s | s in stores :: KeyOf(s) == k
  }

  /**
   * The collection invariant: every document is well formed, ids are distinct and
   * below `nextId`, creation times strictly increase and lie below `clock`, and the
   * unique index holds — no two documents share (platform, storeUrl, createdBy).
   */
  ghost predicate Valid(repo: Repo)
  {
    && (forall i :: 0 <= i < |repo.stores| ==>
          WellFormed(repo.stores[i]) && repo.stores[i].id < repo.nextId && repo.stores[i].createdAt < repo.clock)
    && (forall i, j :: 0 <= i < j < |repo.stores| ==>
          && repo.stores[i].id != repo.stores[j].id
          && repo.stores[i].createdAt < repo.stores[j].createdAt
          && KeyOf(repo.stores[i]) != KeyOf(repo.stores[j]))
  }

  lemma EmptyRepoValid()
    ensures Valid(EmptyRepo)
  {
  }
}

=== FILE: store_controller.dfy ===
/**
 * The three handlers of server/controllers/storeController.js as state
 * transitions over the store repository: `createStore` (validate, probe,
 * create, map a unique-index violation), `getStores` (owner filter, no
 * credentials, newest first) and `syncStoreOrders` (owner-scoped lookup,
 * platform dispatch, order mapping, `lastSyncAt` stamp).
 */
module StoreController {
  import opened Results
  import opened JsValues
  import opened Schema
  import opened OrderMapping
  import opened Upstream

  /** The body of a store-creation request. */
  datatype CreateRequest = CreateRequest(
    platform: Option<string>,
    name: Option<string>,
    storeUrl: Option<string>,
    credentials: Option<RawCredentials>)

  /** Whether the database answers reads and accepts writes during one request. */
  datatype Db = Db(readsOk: bool, writesOk: bool)

  /** A repository together with the outcome of the operation that produced it. */
  datatype Transition<T, E> = Transition(repo: Repo, result: Result<T, E>)

  /** An error response: HTTP status and the `message` of its JSON body. */
  datatype ApiError = ApiError(status: nat, message: string)

  // ---------------------------------------------------------------- createStore

  /** Why a creation failed on the server side. */
  datatype Fault = InvalidRecord | StorageUnavailable

  /** Every way `createStore` can refuse a request. */
  datatype CreateError =
    | MissingFields
    | ShopifyConnectionFailed
    | WooConnectionFailed
    | AlreadyExists
    | ServerError(fault: Fault)

  /** The response a creation error is sent as. */
  function CreateErrorResponse(e: CreateError): (r: ApiError)
    ensures r.status == 500 <==> e.ServerError?
    ensures r.status == 400 <==> !e.ServerError?
    ensures r.message == "Missing required fields" <==> e.MissingFields?
    ensures r.message == "Shopify connection failed" <==> e.ShopifyConnectionFailed?
    ensures r.message == "WooCommerce connection failed" <==> e.WooConnectionFailed?
    ensures r.message == "Store already exists" <==> e.AlreadyExists?
    ensures r.message == "Server error" <==> e.ServerError?
  {
    match e
    case MissingFields => ApiError(400, "Missing required fields")
    case ShopifyConnectionFailed => ApiError(400, "Shopify connection failed")
    case WooConnectionFailed => ApiError(400, "WooCommerce connection failed")
    case AlreadyExists => ApiError(400, "Store already exists")
    case ServerError(_) => ApiError(500, "Server error")
  }

  /** The status of a successful creation. */
  const CreatedStatus: nat := 201

  /** A request text field passes `!field` only when it is present and non-empty. */
  predicate Present(o: Option<string>)
  {
    o.Some? && o.value != ""
  }

  /** `platform`, `name`, `storeUrl` and `credentials` are all truthy. */
  predicate HasRequiredFields(req: CreateRequest)
  {
    Present(req.platform) && Present(req.name) && Present(req.storeUrl) && req.credentials.Some?
  }

  /** A Shopify probe succeeds on any 2xx answer. */
  predicate ShopifyProbeOk(p: ProbeReply)
  {
    p.ProbeResponded?
  }

  /** A WooCommerce probe succeeds only on a truthy body that carries `environment`. */
  predicate WooProbeOk(p: ProbeReply)
  {
    p.ProbeResponded? && p.body.ObjectBody? && p.body.hasEnvironment
  }

  /** The probe gate: only the two platform names trigger a probe, and both are strict. */
  function ProbeGate(platform: string, probe: ProbeReply): (r: Option<CreateError>)
    ensures r.None? <==> (platform == "shopify" ==> ShopifyProbeOk(probe)) && (platform == "woocommerce" ==> WooProbeOk(probe))
    ensures r.Some? ==> r.value == (if platform == "shopify" then ShopifyConnectionFailed else WooConnectionFailed)
  {
    if platform == "shopify" && !ShopifyProbeOk(probe) then Some(ShopifyConnectionFailed)
    else if platform == "woocommerce" && !WooProbeOk(probe) then Some(WooConnectionFailed)
    else None
  }

  /** The document `createStore` hands to `Store.create`: the request fields, CONNECTED, owned by the caller. */
  function NewStoreFields(req: CreateRequest, caller: UserId): RecordFields
    requires HasRequiredFields(req)
  {
    RecordFields(req.name.value, req.platform.value, req.storeUrl.value, req.credentials.value, Some(Connected), caller)
  }

  /**
   * `Store.create`: validation first (a 500), then the database (a 500 when it is
   * down), then the unique index (a duplicate), then the insert with a fresh id
   * and the next creation time.
   */
  function Insert(repo: Repo, f: RecordFields, db: Db): (r: Transition<Store, CreateError>)
    ensures r.result.Err? ==> r.repo == repo
    ensures r.result.Ok? <==>
      MakeRecord(repo.nextId, repo.clock, f).Some? && db.writesOk &&
      !KeyTaken(repo.stores, KeyOf(MakeRecord(repo.nextId, repo.clock, f).value))
    ensures r.result.Ok? ==>
      && r.result.value == MakeRecord(repo.nextId, repo.clock, f).value
      && r.repo == Repo(repo.stores + [r.result.value], repo.nextId + 1, repo.clock + 1)
    ensures r.result == Err(AlreadyExists) <==>
      MakeRecord(repo.nextId, repo.clock, f).Some? && db.writesOk &&
      KeyTaken(repo.stores, KeyOf(MakeRecord(repo.nextId, repo.clock, f).value))
  {
    match MakeRecord(repo.nextId, repo.clock, f)
    case None => Transition(repo, Err(ServerError(InvalidRecord)))
    case Some(s) =>
      if !db.writesOk then Transition(repo, Err(ServerError(StorageUnavailable)))
      else if KeyTaken(repo.stores, KeyOf(s)) then Transition(repo, Err(AlreadyExists))
      else Transition(Repo(repo.stores + [s], repo.nextId + 1, repo.clock + 1), Ok(s))
  }

  /** True when the caller already owns a store with this platform name and trimmed URL. */
  predicate OwnsSameStore(repo: Repo, caller: UserId, platform: string, storeUrl: string)
  {
    exists s | s in repo.stores :: PlatformName(s.platform) == platform && s.storeUrl == Trim(storeUrl) && s.createdBy == caller
  }

  /**
   * `createStore`. Any refusal leaves the repository as it was; a success appends
   * exactly one CONNECTED store owned by the caller, never synced, with the trimmed
   * name and URL, and it succeeds exactly when the fields are present, the probe
   * passes, the record validates, the database is writable and the caller does not
   * already own the same (platform, storeUrl).
   */
  function CreateStore(repo: Repo, caller: UserId, req: CreateRequest, probe: ProbeReply, db: Db)
    : (r: Transition<Store, CreateError>)
    ensures r.result.Err? ==> r.repo == repo
    ensures r.result == Err(MissingFields) <==> !HasRequiredFields(req)
    ensures r.result == Err(ShopifyConnectionFailed) <==>
      HasRequiredFields(req) && req.platform.value == "shopify" && !ShopifyProbeOk(probe)
    ensures r.result == Err(WooConnectionFailed) <==>
      HasRequiredFields(req) && req.platform.value == "woocommerce" && !WooProbeOk(probe)
    ensures r.result.Err? && r.result.error.ServerError? <==>
      && HasRequiredFields(req)
      && ProbeGate(req.platform.value, probe).None?
      && (MakeRecord(repo.nextId, repo.clock, NewStoreFields(req, caller)).None? || !db.writesOk)
    ensures HasRequiredFields(req) && ParsePlatform(req.platform.value).None? ==>
      r.result == Err(ServerError(InvalidRecord))
    ensures r.result.Ok? <==>
      && HasRequiredFields(req)
      && ProbeGate(req.platform.value, probe).None?
      && ParsePlatform(req.platform.value).Some?
      && Trim(req.name.value) != "" && Trim(req.storeUrl.value) != ""
      && db.writesOk
      && !OwnsSameStore(repo, caller, req.platform.value, req.storeUrl.value)
    ensures r.result == Err(AlreadyExists) <==>
      && HasRequiredFields(req)
      && ProbeGate(req.platform.value, probe).None?
      && ParsePlatform(req.platform.value).Some?
      && Trim(req.name.value) != "" && Trim(req.storeUrl.value) != ""
      && db.writesOk
      && OwnsSameStore(repo, caller, req.platform.value, req.storeUrl.value)
    ensures r.result.Ok? ==>
      var s := r.result.value;
      && r.repo.stores == repo.stores + [s]
      && s.id == repo.nextId && s.createdAt == repo.clock
      && s.status == Connected && s.createdBy == caller && s.lastSyncAt.None?
      && PlatformName(s.platform) == req.platform.value
      && s.name == Trim(req.name.value) && s.storeUrl == Trim(req.storeUrl.value)
      && s.credentials == CastCredentials(req.credentials.value)
  {
    if !HasRequiredFields(req) then Transition(repo, Err(MissingFields))
    else
      match ProbeGate(req.platform.value, probe)
      case Some(e) => Transition(repo, Err(e))
      case None =>
        var f := NewStoreFields(req, caller);
        KeyTakenIffOwnsSameStore(repo, caller, req);
        Insert(repo, f, db)
  }

  /** The index key of the record a request would create is taken exactly when the caller owns the same store. */
  lemma KeyTakenIffOwnsSameStore(repo: Repo, caller: UserId, req: CreateRequest)
    requires HasRequiredFields(req)
    ensures
      var rec := MakeRecord(repo.nextId, repo.clock, NewStoreFields(req, caller));
      rec.Some? ==> (KeyTaken(repo.stores, KeyOf(rec.value)) <==> OwnsSameStore(repo, caller, req.platform.value, req.storeUrl.value))
  {
    var rec := MakeRecord(repo.nextId, repo.clock, NewStoreFields(req, caller));
    if rec.Some? && OwnsSameStore(repo, caller, req.platform.value, req.storeUrl.value) {
      var s := rec.value;
      var t :| t in repo.stores && PlatformName(t.platform) == req.platform.value
        && t.storeUrl == Trim(req.storeUrl.value) && t.createdBy == caller;
      PlatformNameRoundTrip(t.platform);
      PlatformNameRoundTrip(s.platform);
      assert KeyOf(t) == KeyOf(s);
    }
  }

  /** The HTTP status and body `message` of a creation: 201 with the document, or the error. */
  function CreateResponse(result: Result<Store, CreateError>): (r: (nat, Value))
    ensures 200 <= r.0 < 300 <==> result.Ok?
    ensures result.Ok? ==> r.0 == 201
    ensures result.Err? ==> r.0 == CreateErrorResponse(result.error).status
    ensures result.Err? ==> r.1 == Text(CreateErrorResponse(result.error).message)
  {
    match result
    case Ok(_) => (CreatedStatus, Undefined)
    case Err(e) => (CreateErrorResponse(e).status, Text(CreateErrorResponse(e).message))
  }

  /** Appending a fresh, well-formed record whose index key is free keeps the collection invariant. */
  lemma AppendPreservesValid(repo: Repo, s: Store)
    requires Valid(repo)
    requires WellFormed(s) && s.id == repo.nextId && s.createdAt == repo.clock
    requires !KeyTaken(repo.stores, KeyOf(s))
    ensures Valid(Repo(repo.stores + [s], repo.nextId + 1, repo.clock + 1))
  {
    var stores := repo.stores + [s];
    var n := |repo.stores|;
    forall i | 0 <= i < n
      ensures stores[i] == repo.stores[i] && KeyOf(stores[i]) != KeyOf(s)
    {
      assert repo.stores[i] in repo.stores;
    }
  }

  /** Registration keeps the collection invariant, in particular the unique index. */
  lemma CreatePreservesValid(repo: Repo, caller: UserId, req: CreateRequest, probe: ProbeReply, db: Db)
    requires Valid(repo)
    ensures Valid(CreateStore(repo, caller, req, probe, db).repo)
  {
    var r := CreateStore(repo, caller, req, probe, db);
    if r.result.Ok? {
      CreatedIsInserted(repo, caller, req, probe, db);
      AppendPreservesValid(repo, r.result.value);
    }
  }

  /** A successful registration is the insert of the record built from the request. */
  lemma CreatedIsInserted(repo: Repo, caller: UserId, req: CreateRequest, probe: ProbeReply, db: Db)
    ensures CreateStore(repo, caller, req, probe, db).result.Ok? ==>
      CreateStore(repo, caller, req, probe, db) == Insert(repo, NewStoreFields(req, caller), db)
  {
  }

  /**
   * Registering the same store twice: once a registration has succeeded, the
   * identical request from the same caller is refused as a duplicate and changes
   * nothing, provided the second probe passes too (the database already accepted the first).
   */
  lemma {:induction false} SecondRegistrationIsDuplicate(
    repo: Repo, caller: UserId, req: CreateRequest, probe1: ProbeReply, probe2: ProbeReply, db: Db)
    requires CreateStore(repo, caller, req, probe1, db).result.Ok?
    requires ProbeGate(req.platform.value, probe2).None?
    ensures
      var repo' := CreateStore(repo, caller, req, probe1, db).repo;
      var again := CreateStore(repo', caller, req, probe2, db);
      again.result == Err(AlreadyExists) && again.repo == repo'
  {
    var first := CreateStore(repo, caller, req, probe1, db);
    var s := first.result.value;
    assert s in first.repo.stores;
    assert OwnsSameStore(first.repo, caller, req.platform.value, req.storeUrl.value);
  }

  // ---------------------------------------------------------------- getStores

  /** A store as the listing returns it: every field except the credentials. */
  datatype StoreView = StoreView(
    id: StoreId,
    name: string,
    platform: Platform,
    storeUrl: string,
    status: Status,
    lastSyncAt: Option<Time>,
    createdBy: UserId,
    createdAt: Time)

  /** `.select("-credentials")`. */
  function View(s: Store): StoreView
  {
    StoreView(s.id, s.name, s.platform, s.storeUrl, s.status, s.lastSyncAt, s.createdBy, s.createdAt)
  }

  /** The credentials are the only thing a view loses. */
  lemma ViewDropsOnlyCredentials(s: Store, t: Store)
    ensures View(s) == View(t) <==> s.(credentials := t.credentials) == t
  {
  }

  /** `.find({ createdBy: caller })`, in collection order. */
  function OwnedViews(stores: seq<Store>, caller: UserId): (r: seq<StoreView>)
    ensures forall v :: v in r ==> v.createdBy == caller && exists s :: s in stores && View(s) == v
    ensures forall s :: s in stores && s.createdBy == caller ==> View(s) in r
    ensures |r| <= |stores|
  {
    if stores == [] then []
    else
      var rest := OwnedViews(stores[1..], caller);
      assert forall s :: s in stores[1..] ==> s in stores;
      if stores[0].createdBy == caller then [View(stores[0])] + rest else rest
  }

  /** No view occurs twice. */
  ghost predicate NoRepeats(vs: seq<StoreView>)
  {
    forall v :: v in multiset(vs) ==> multiset(vs)[v] == 1
  }

  /** When the documents have distinct ids, the owner filter lists each of them once. */
  lemma {:induction false} OwnedViewsNoRepeats(stores: seq<Store>, caller: UserId)
    requires forall i, j :: 0 <= i < j < |stores| ==> stores[i].id != stores[j].id
    ensures NoRepeats(OwnedViews(stores, caller))
    ensures forall v :: v in OwnedViews(stores, caller) ==> exists i :: 0 <= i < |stores| && stores[i].id == v.id
  {
    if stores != [] {
      var tail := stores[1..];
      forall i, j | 0 <= i < j < |tail| ensures tail[i].id != tail[j].id {
        assert tail[i] == stores[i + 1] && tail[j] == stores[j + 1];
      }
      OwnedViewsNoRepeats(tail, caller);
      var rest := OwnedViews(tail, caller);
      forall v | v in rest ensures exists i :: 0 <= i < |stores| && stores[i].id == v.id {
        var k :| 0 <= k < |tail| && tail[k].id == v.id;
        assert stores[k + 1].id == v.id;
      }
      if stores[0].createdBy == caller {
        var h := View(stores[0]);
        assert h !in rest;
        assert OwnedViews(stores, caller) == [h] + rest;
        forall v | v in multiset([h] + rest) ensures multiset([h] + rest)[v] == 1 {
          if v == h {
            assert multiset(rest)[h] == 0;
          } else {
            assert multiset([h] + rest)[v] == multiset(rest)[v];
          }
        }
      }
    }
  }

  /**
   * Under the collection invariant the listing names every store of the caller
   * exactly once.
   */
  lemma ListingHasNoRepeats(repo: Repo, caller: UserId, db: Db)
    requires Valid(repo) && db.readsOk
    ensures NoRepeats(GetStores(repo, caller, db).value)
  {
    OwnedViewsNoRepeats(repo.stores, caller);
  }

  /** Ordered by creation time, newest first. */
  predicate NewestFirst(vs: seq<StoreView>)
  {
    forall i, j :: 0 <= i < j < |vs| ==> vs[i].createdAt >= vs[j].createdAt
  }

  /** Inserts one view into a newest-first list, before the first view that is not newer. */
  function InsertByAge(v: StoreView, vs: seq<StoreView>): (r: seq<StoreView>)
    requires NewestFirst(vs)
    ensures NewestFirst(r)
    ensures multiset(r) == multiset(vs) + multiset{v}
  {
    if vs == [] || v.createdAt >= vs[0].createdAt then [v] + vs
    else
      var rest := InsertByAge(v, vs[1..]);
      assert vs == [vs[0]] + vs[1..];
      TailNoNewerThanHead(v, vs, rest);
      ConsNewestFirst(vs[0], rest);
      assert multiset([vs[0]] + rest) == multiset{vs[0]} + multiset(rest);
      [vs[0]] + rest
  }

  /** A head at least as new as every view of a newest-first list keeps it newest-first. */
  lemma ConsNewestFirst(h: StoreView, vs: seq<StoreView>)
    requires NewestFirst(vs)
    requires forall x | x in multiset(vs) :: x.createdAt <= h.createdAt
    ensures NewestFirst([h] + vs)
  {
    forall j | 0 <= j < |vs| ensures vs[j].createdAt <= h.createdAt {
      assert vs[j] in multiset(vs);
    }
  }

  /** Inserting an older view into the tail of a newest-first list keeps it no newer than the head. */
  lemma TailNoNewerThanHead(v: StoreView, vs: seq<StoreView>, rest: seq<StoreView>)
    requires NewestFirst(vs) && vs != [] && v.createdAt < vs[0].createdAt
    requires multiset(rest) == multiset(vs[1..]) + multiset{v}
    ensures forall x | x in multiset(rest) :: x.createdAt <= vs[0].createdAt
  {
    assert vs == [vs[0]] + vs[1..];
    forall x | x in multiset(rest) ensures x.createdAt <= vs[0].createdAt {
      if x != v {
        NoNewerThanHead(vs, x);
      }
    }
  }

  /** Every view of a newest-first list is no newer than its head. */
  lemma NoNewerThanHead(vs: seq<StoreView>, x: StoreView)
    requires NewestFirst(vs)
    ensures x in multiset(vs) ==> x.createdAt <= vs[0].createdAt
  {
    if x in multiset(vs) {
      var k :| 0 <= k < |vs| && vs[k] == x;
    }
  }

  /** `.sort({ createdAt: -1 })`: the views sorted by creation time, newest first. */
  function SortNewestFirst(vs: seq<StoreView>): (r: seq<StoreView>)
    ensures NewestFirst(r)
    ensures multiset(r) == multiset(vs)
  {
    if vs == [] then []
    else
      assert vs == [vs[0]] + vs[1..];
      InsertByAge(vs[0], SortNewestFirst(vs[1..]))
  }

  /**
   * `getStores`: exactly the caller's stores, without credentials, newest first;
   * a 500 when the database cannot be read.
   */
  function GetStores(repo: Repo, caller: UserId, db: Db): (r: Result<seq<StoreView>, ApiError>)
    ensures r.Err? <==> !db.readsOk
    ensures r.Err? ==> r.error == ApiError(500, "Server error")
    ensures r.Ok? ==> NewestFirst(r.value)
    ensures r.Ok? ==> forall v :: v in r.value ==> v.createdBy == caller && exists s :: s in repo.stores && View(s) == v
    ensures r.Ok? ==> forall s :: s in repo.stores && s.createdBy == caller ==> View(s) in r.value
    ensures r.Ok? ==> multiset(r.value) == multiset(OwnedViews(repo.stores, caller))
  {
    if !db.readsOk then Err(ApiError(500, "Server error"))
    else
      var owned := OwnedViews(repo.stores, caller);
      var sorted := SortNewestFirst(owned);
      assert forall v :: v in sorted <==> v in owned by {
        forall v ensures v in sorted <==> v in owned {
          assert v in sorted <==> v in multiset(sorted);
          assert v in owned <==> v in multiset(owned);
        }
      }
      Ok(sorted)
  }

  /**
   * Every stored document, a newly registered one included, shows up in its
   * owner's listing and in nobody else's.
   */
  lemma StoreListedOnlyToOwner(repo: Repo, s: Store, other: UserId, db: Db)
    requires s in repo.stores && db.readsOk && other != s.createdBy
    ensures View(s) in GetStores(repo, s.createdBy, db).value
    ensures View(s) !in GetStores(repo, other, db).value
  {
  }

  // ---------------------------------------------------------------- syncStoreOrders

  /** The `:id` route parameter: a well-formed id, or text that cannot be cast to one. */
  datatype RequestedId = StoreRef(id: StoreId) | MalformedId

  /** Why a sync failed with a 500. */
  datatype SyncFault = InvalidId | LookupFailed | FetchFailed | InvalidPayload | MappingFailed | SaveFailed

  datatype SyncError = StoreNotFound | SyncFailed(fault: SyncFault)

  /** The response a sync error is sent as. */
  function SyncErrorResponse(e: SyncError): (r: ApiError)
    ensures r.status == 404 <==> e.StoreNotFound?
    ensures r.status == 500 <==> e.SyncFailed?
    ensures r.message == "Store not found" <==> e.StoreNotFound?
    ensures r.message == "Order sync failed" <==> e.SyncFailed?
  {
    match e
    case StoreNotFound => ApiError(404, "Store not found")
    case SyncFailed(_) => ApiError(500, "Order sync failed")
  }

  /** The body of a successful sync. */
  datatype SyncResult = SyncResult(storeId: StoreId, storeName: string, totalOrders: nat, orders: seq<Order>)

  /** True when the store has this id and belongs to this user. */
  predicate OwnedMatch(s: Store, id: StoreId, owner: UserId)
  {
    s.id == id && s.createdBy == owner
  }

  /** `Store.findOne({ _id: id, createdBy: owner })` from position `k` on: the first match. */
  function FindOwnedFrom(stores: seq<Store>, id: StoreId, owner: UserId, k: nat): (r: Option<nat>)
    requires k <= |stores|
    ensures r.Some? ==> k <= r.value < |stores| && OwnedMatch(stores[r.value], id, owner)
    ensures r.Some? ==> forall i :: k <= i < r.value ==> !OwnedMatch(stores[i], id, owner)
    ensures r.None? <==> forall i :: k <= i < |stores| ==> !OwnedMatch(stores[i], id, owner)
    decreases |stores| - k
  {
    if k == |stores| then None
    else if OwnedMatch(stores[k], id, owner) then Some(k)
    else FindOwnedFrom(stores, id, owner, k + 1)
  }

  /** The position of the caller's store with this id, if there is one. */
  function FindOwned(stores: seq<Store>, id: StoreId, owner: UserId): (r: Option<nat>)
    ensures r.Some? ==> r.value < |stores| && OwnedMatch(stores[r.value], id, owner)
    ensures r.None? <==> forall i :: 0 <= i < |stores| ==> !OwnedMatch(stores[i], id, owner)
  {
    FindOwnedFrom(stores, id, owner, 0)
  }

  /**
   * The platform dispatch of a sync: the reply of the store's own platform is
   * read, checked for shape and mapped as a whole, or the sync fails.
   */
  function FetchOrders(s: Store, replies: Replies): (r: Result<seq<Order>, SyncFault>)
    ensures r.Ok? <==>
      || (s.platform == Shopify && replies.shopify.ShopifyJson? && replies.shopify.orders.Some? &&
          forall i :: 0 <= i < |replies.shopify.orders.value| ==> replies.shopify.orders.value[i].Some?)
      || (s.platform == WooCommerce && replies.woo.WooData? && replies.woo.body.WooArray? &&
          forall i :: 0 <= i < |replies.woo.body.entries| ==> replies.woo.body.entries[i].Some?)
    ensures r.Ok? && s.platform == Shopify ==>
      replies.shopify.ShopifyJson? && replies.shopify.orders.Some? &&
      Some(r.value) == MapShopifyOrders(s, replies.shopify.orders.value)
    ensures r.Ok? && s.platform == WooCommerce ==>
      replies.woo.WooData? && replies.woo.body.WooArray? &&
      Some(r.value) == MapWooOrders(s, replies.woo.body.entries)
    ensures s.platform == Shopify && (replies.shopify.ShopifyUnreachable? || replies.shopify.ShopifyNotOk?) ==>
      r == Err(FetchFailed)
    ensures s.platform == Shopify && (replies.shopify.ShopifyUnparsable? || replies.shopify == ShopifyJson(None)) ==>
      r == Err(InvalidPayload)
    ensures s.platform == Shopify && replies.shopify.ShopifyJson? && replies.shopify.orders.Some? ==>
      (r == Err(MappingFailed) <==> exists i :: 0 <= i < |replies.shopify.orders.value| && replies.shopify.orders.value[i].None?)
    ensures s.platform == WooCommerce && replies.woo.WooFailed? ==> r == Err(FetchFailed)
    ensures s.platform == WooCommerce && replies.woo == WooData(WooNotArray) ==> r == Err(InvalidPayload)
    ensures s.platform == WooCommerce && replies.woo.WooData? && replies.woo.body.WooArray? ==>
      (r == Err(MappingFailed) <==> exists i :: 0 <= i < |replies.woo.body.entries| && replies.woo.body.entries[i].None?)
  {
    match s.platform
    case Shopify => (
      match replies.shopify
      case ShopifyUnreachable => Err(FetchFailed)
      case ShopifyNotOk => Err(FetchFailed)
      case ShopifyUnparsable => Err(InvalidPayload)
      case ShopifyJson(None) => Err(InvalidPayload)
      case ShopifyJson(Some(entries)) => (
        match MapShopifyOrders(s, entries)
        case None => Err(MappingFailed)
        case Some(orders) => Ok(orders)))
    case WooCommerce => (
      match replies.woo
      case WooFailed => Err(FetchFailed)
      case WooData(WooNotArray) => Err(InvalidPayload)
      case WooData(WooArray(entries)) => (
        match MapWooOrders(s, entries)
        case None => Err(MappingFailed)
        case Some(orders) => Ok(orders)))
  }

  /** The store with only its `lastSyncAt` replaced. */
  function Stamp(s: Store, now: Time): Store
  {
    s.(lastSyncAt := Some(now))
  }

  /**
   * `syncStoreOrders`. A failure of any kind leaves the repository unchanged; a
   * store that does not exist or belongs to someone else is a 404; on success the
   * caller's store is the only one touched, its `lastSyncAt` becomes `now`, and the
   * result names it and counts the orders it returns, each tagged with the store.
   */
  function SyncStoreOrders(repo: Repo, caller: UserId, rid: RequestedId, replies: Replies, now: Time, db: Db)
    : (r: Transition<SyncResult, SyncError>)
    ensures r.result.Err? ==> r.repo == repo
    ensures r.result == Err(StoreNotFound) <==>
      rid.StoreRef? && db.readsOk && forall i :: 0 <= i < |repo.stores| ==> !OwnedMatch(repo.stores[i], rid.id, caller)
    ensures r.result.Ok? <==>
      rid.StoreRef? && db.readsOk && db.writesOk && FindOwned(repo.stores, rid.id, caller).Some? &&
      FetchOrders(repo.stores[FindOwned(repo.stores, rid.id, caller).value], replies).Ok?
    ensures r.result.Ok? ==>
      var i := FindOwned(repo.stores, rid.id, caller).value;
      var s := repo.stores[i];
      && OwnedMatch(s, rid.id, caller)
      && r.repo == repo.(stores := repo.stores[i := Stamp(s, now)])
      && r.result.value.storeId == s.id && r.result.value.storeName == s.name
      && r.result.value.orders == FetchOrders(s, replies).value
      && r.result.value.totalOrders == |r.result.value.orders|
      && (forall k :: 0 <= k < |r.result.value.orders| ==> FromStore(r.result.value.orders[k], s))
  {
    match rid
    case MalformedId => Transition(repo, Err(SyncFailed(InvalidId)))
    case StoreRef(id) =>
      if !db.readsOk then Transition(repo, Err(SyncFailed(LookupFailed)))
      else
        match FindOwned(repo.stores, id, caller)
        case None => Transition(repo, Err(StoreNotFound))
        case Some(i) =>
          var s := repo.stores[i];
          match FetchOrders(s, replies)
          case Err(fault) => Transition(repo, Err(SyncFailed(fault)))
          case Ok(orders) =>
            SyncedOrdersFromStore(s, replies);
            if !db.writesOk then Transition(repo, Err(SyncFailed(SaveFailed)))
            else
              Transition(repo.(stores := repo.stores[i := Stamp(s, now)]),
                         Ok(SyncResult(s.id, s.name, |orders|, orders)))
  }

  /** Every order a successful fetch returns carries the store's name and id. */
  lemma SyncedOrdersFromStore(s: Store, replies: Replies)
    requires FetchOrders(s, replies).Ok?
    ensures forall k :: 0 <= k < |FetchOrders(s, replies).value| ==> FromStore(FetchOrders(s, replies).value[k], s)
  {
    match s.platform
    case Shopify => ShopifyBatchInvariant(s, replies.shopify.orders.value);
    case WooCommerce => WooBatchInvariant(s, replies.woo.body.entries);
  }

  /**
   * Ownership is an authorisation boundary: asking to sync another user's store
   * gets a 404, touches no store, and returns nothing of that store.
   */
  lemma OtherOwnersStoreIsNotFound(repo: Repo, caller: UserId, i: nat, replies: Replies, now: Time, db: Db)
    requires Valid(repo)
    requires i < |repo.stores| && repo.stores[i].createdBy != caller
    requires db.readsOk
    ensures
      var r := SyncStoreOrders(repo, caller, StoreRef(repo.stores[i].id), replies, now, db);
      r.result == Err(StoreNotFound) && r.repo == repo
  {
    var id := repo.stores[i].id;
    forall j | 0 <= j < |repo.stores|
      ensures !OwnedMatch(repo.stores[j], id, caller)
    {
      if j != i && repo.stores[j].id == id {
        assert false;
      }
    }
  }

  /**
   * A successful sync changes one field of one record: every other store is
   * untouched, and the synced store differs from before only in `lastSyncAt`.
   */
  lemma SyncChangesOnlyLastSyncAt(repo: Repo, caller: UserId, rid: RequestedId, replies: Replies, now: Time, db: Db)
    requires SyncStoreOrders(repo, caller, rid, replies, now, db).result.Ok?
    ensures
      var repo' := SyncStoreOrders(repo, caller, rid, replies, now, db).repo;
      && |repo'.stores| == |repo.stores| && repo'.nextId == repo.nextId && repo'.clock == repo.clock
      && forall k :: 0 <= k < |repo.stores| ==>
           && repo'.stores[k].(lastSyncAt := repo.stores[k].lastSyncAt) == repo.stores[k]
           && (repo'.stores[k] != repo.stores[k] ==> OwnedMatch(repo.stores[k], rid.id, caller) && repo'.stores[k].lastSyncAt == Some(now))
  {
  }

  /** A sync only reads the reply of the store's own platform. */
  lemma SyncReadsOnlyOwnPlatform(repo: Repo, caller: UserId, rid: RequestedId, a: Replies, b: Replies, now: Time, db: Db)
    requires rid.StoreRef? && FindOwned(repo.stores, rid.id, caller).Some?
    requires
      var s := repo.stores[FindOwned(repo.stores, rid.id, caller).value];
      (s.platform == Shopify ==> a.shopify == b.shopify) && (s.platform == WooCommerce ==> a.woo == b.woo)
    ensures SyncStoreOrders(repo, caller, rid, a, now, db) == SyncStoreOrders(repo, caller, rid, b, now, db)
  {
    var s := repo.stores[FindOwned(repo.stores, rid.id, caller).value];
    assert FetchOrders(s, a) == FetchOrders(s, b);
  }

  /** Syncing keeps the collection invariant. */
  lemma SyncPreservesValid(repo: Repo, caller: UserId, rid: RequestedId, replies: Replies, now: Time, db: Db)
    requires Valid(repo)
    ensures Valid(SyncStoreOrders(repo, caller, rid, replies, now, db).repo)
  {
    var r := SyncStoreOrders(repo, caller, rid, replies, now, db);
    if r.result.Ok? {
      StampPreservesValid(repo, FindOwned(repo.stores, rid.id, caller).value, now);
    }
  }

  /** Stamping one record's `lastSyncAt` keeps the collection invariant. */
  lemma StampPreservesValid(repo: Repo, i: nat, now: Time)
    requires Valid(repo) && i < |repo.stores|
    ensures Valid(repo.(stores := repo.stores[i := Stamp(repo.stores[i], now)]))
  {
    var repo' := repo.(stores := repo.stores[i := Stamp(repo.stores[i], now)]);
    forall k | 0 <= k < |repo'.stores|
      ensures WellFormed(repo'.stores[k]) && repo'.stores[k].id < repo'.nextId && repo'.stores[k].createdAt < repo'.clock
    {
      assert WellFormed(repo.stores[k]);
    }
    forall j, k | 0 <= j < k < |repo'.stores|
      ensures repo'.stores[j].id != repo'.stores[k].id
      ensures repo'.stores[j].createdAt < repo'.stores[k].createdAt
      ensures KeyOf(repo'.stores[j]) != KeyOf(repo'.stores[k])
    {
      assert KeyOf(repo'.stores[j]) == KeyOf(repo.stores[j]);
      assert KeyOf(repo'.stores[k]) == KeyOf(repo.stores[k]);
    }
  }
}

=== FILE: upstream.dfy ===
/**
 * What the controller asks of Shopify and WooCommerce and the shapes of the
 * answers it can get back. The calls themselves are not modelled: an answer is
 * an input value of the operation that would have made the call.
 */
module Upstream {
  import opened Results
  import opened JsValues
  import opened Schema
  import opened OrderMapping

  /** An outbound GET: URL, headers, query parameters and an optional timeout in milliseconds. */
  datatype Get = Get(url: string, headers: seq<(string, Value)>, query: seq<(string, Value)>, timeoutMs: Option<nat>)

  /** The timeout both WooCommerce calls set. */
  const WooTimeoutMs: nat := 15000

  /** The number of most recent orders one sync asks for, on either platform. */
  const OrderWindow: nat := 10

  /** An optional text field as a JavaScript value: absent is `undefined`. */
  function OptText(o: Option<string>): Value
  {
    match o
    case None => Undefined
    case Some(s) => Text(s)
  }

  /** `credentials.apiVersion || "2024-01"`: the version the registration probe addresses. */
  function ProbeApiVersion(c: RawCredentials): (r: string)
    ensures r != ""
    ensures c.apiVersion.Some? && c.apiVersion.value != "" ==> r == c.apiVersion.value
    ensures c.apiVersion.None? || c.apiVersion == Some("") ==> r == DefaultApiVersion
  {
    match c.apiVersion
    case Some(v) => if v != "" then v else DefaultApiVersion
    case None => DefaultApiVersion
  }

  /** The root of a store's Admin API at one version. */
  function ShopifyApiBase(storeUrl: string, version: string): string
  {
    storeUrl + "/admin/api/" + version
  }

  /** The root of a store's WooCommerce REST API. */
  function WooApiBase(storeUrl: string): string
  {
    storeUrl + "/wp-json/wc/v3"
  }

  /** The path of the order fetch below the Admin API root. */
  function ShopifyOrdersPath(): (r: string)
    ensures r == "/orders.json?limit=10"
  {
    assert Digits(OrderWindow) == "10" by {
      assert Digits(OrderWindow / 10) == "1";
    }
    "/orders.json?limit=" + ToText(Num(OrderWindow))
  }

  /**
   * The Shopify registration probe: the shop resource of the Admin API at the
   * request's version (never an empty one), authenticated by the access-token
   * header of the request, with no timeout.
   */
  function ShopifyProbe(storeUrl: string, c: RawCredentials): (r: Get)
    ensures r.url == ShopifyApiBase(storeUrl, ProbeApiVersion(c)) + "/shop.json"
    ensures r.headers == [("X-Shopify-Access-Token", OptText(c.accessToken))]
    ensures r.query == [] && r.timeoutMs.None?
  {
    Get(ShopifyApiBase(storeUrl, ProbeApiVersion(c)) + "/shop.json",
        [("X-Shopify-Access-Token", OptText(c.accessToken))], [], None)
  }

  /**
   * The WooCommerce registration probe: the system-status resource below the
   * request's URL, with the request's key and secret in the query and a 15 s timeout.
   */
  function WooProbe(storeUrl: string, c: RawCredentials): (r: Get)
    ensures r.url == WooApiBase(storeUrl) + "/system_status"
    ensures r.query == [("consumer_key", OptText(c.consumerKey)), ("consumer_secret", OptText(c.consumerSecret))]
    ensures r.headers == [] && r.timeoutMs == Some(WooTimeoutMs)
  {
    Get(WooApiBase(storeUrl) + "/system_status", [],
        [("consumer_key", OptText(c.consumerKey)), ("consumer_secret", OptText(c.consumerSecret))],
        Some(WooTimeoutMs))
  }

  /**
   * The Shopify order fetch of a sync: the Admin API at the stored version, limited
   * to the order window, authenticated by the stored token, with no timeout.
   */
  function ShopifyOrdersRequest(s: Store): (r: Get)
    ensures r.url == ShopifyApiBase(s.storeUrl, s.credentials.apiVersion) + "/orders.json?limit=10"
    ensures r.headers == [("X-Shopify-Access-Token", OptText(s.credentials.accessToken))]
    ensures r.query == [] && r.timeoutMs.None?
  {
    Get(ShopifyApiBase(s.storeUrl, s.credentials.apiVersion) + ShopifyOrdersPath(),
        [("X-Shopify-Access-Token", OptText(s.credentials.accessToken))], [], None)
  }

  /**
   * The WooCommerce order fetch of a sync: the orders resource below the stored
   * URL, one page of the order window sorted newest first, the stored key and
   * secret in the query, and a 15 s timeout.
   */
  function WooOrdersRequest(s: Store): (r: Get)
    ensures r.url == WooApiBase(s.storeUrl) + "/orders"
    ensures |r.query| == 4
    ensures r.query[..2] == [("consumer_key", OptText(s.credentials.consumerKey)),
                             ("consumer_secret", OptText(s.credentials.consumerSecret))]
    ensures r.query[2..] == [("per_page", Num(OrderWindow)), ("order", Text("desc"))]
    ensures r.headers == [] && r.timeoutMs == Some(WooTimeoutMs)
  {
    Get(WooApiBase(s.storeUrl) + "/orders", [],
        [("consumer_key", OptText(s.credentials.consumerKey)),
         ("consumer_secret", OptText(s.credentials.consumerSecret)),
         ("per_page", Num(OrderWindow)),
         ("order", Text("desc"))],
        Some(WooTimeoutMs))
  }

  /**
   * The registration probe and a later sync address the same Shopify API version
   * exactly when the client did not send an empty `apiVersion`: the probe falls back
   * to "2024-01" on any falsy version, while the schema default applies only to a
   * missing one, so an empty version is stored and used by every sync.
   */
  lemma ProbeAndSyncApiVersion(c: RawCredentials)
    ensures CastCredentials(c).apiVersion == ProbeApiVersion(c) <==> c.apiVersion != Some("")
  {
  }

  /**
   * A URL followed by a part that starts with a non-space character can only equal
   * the trimmed URL followed by another such part when trimming changed nothing.
   */
  lemma UntrimmedUrlDiffers(u: string, a: string, b: string)
    requires a != [] && b != [] && !IsSpace(a[0]) && !IsSpace(b[0])
    ensures u + a == Trim(u) + b ==> Trim(u) == u
  {
    if Trim(u) != u {
      TrimIsInnerSlice(u);
      UncutTrimIsIdentity(u);
      var t := |Trim(u)|;
      if TrimOffset(u) > 0 {
        assert (u + a)[0] != (Trim(u) + b)[0];
      } else {
        assert (u + a)[t] != (Trim(u) + b)[t];
      }
    }
  }

  /** When trimming cuts nothing from either end it returns its argument. */
  lemma UncutTrimIsIdentity(u: string)
    ensures TrimOffset(u) == 0 && |Trim(u)| == |u| ==> Trim(u) == u
  {
    TrimIsInnerSlice(u);
    assert u[0..|u|] == u;
  }

  /** The Shopify root at the trimmed URL agrees with the one at the URL as sent exactly when trimming changed nothing. */
  lemma ShopUrlsAgree(u: string, pv: string, sv: string)
    ensures ShopifyApiBase(u, pv) + "/shop.json" == ShopifyApiBase(Trim(u), sv) + "/shop.json"
      <==> Trim(u) == u && pv == sv
  {
    var a, b := "/admin/api/" + pv + "/shop.json", "/admin/api/" + sv + "/shop.json";
    assert ShopifyApiBase(u, pv) + "/shop.json" == u + a;
    assert ShopifyApiBase(Trim(u), sv) + "/shop.json" == Trim(u) + b;
    UntrimmedUrlDiffers(u, a, b);
    if u + a == Trim(u) + b {
      assert a == (u + a)[|u|..] == (u + b)[|u|..] == b;
      ShopPathsAgree(pv, sv);
    }
  }

  /** The shop path below the Admin API determines its version. */
  lemma ShopPathsAgree(pv: string, sv: string)
    ensures "/admin/api/" + pv + "/shop.json" == "/admin/api/" + sv + "/shop.json" ==> pv == sv
  {
    var a, b := "/admin/api/" + pv + "/shop.json", "/admin/api/" + sv + "/shop.json";
    if a == b {
      assert pv == a[11..11 + |pv|] == b[11..11 + |sv|] == sv;
    }
  }

  /**
   * The Shopify registration probe (the `axios.get` of `createStore`, built from
   * the request as sent) reads the shop resource at the Admin API root every later
   * sync of the stored document uses exactly when the request's URL was already trimmed and it did not carry an
   * empty `apiVersion`: the document keeps the trimmed URL, and the empty version.
   */
  lemma ProbeAndSyncUrls(u: string, c: RawCredentials, s: Store)
    ensures s.storeUrl == Trim(u) && s.credentials == CastCredentials(c) ==>
      (ShopifyProbe(u, c).url == ShopifyApiBase(s.storeUrl, s.credentials.apiVersion) + "/shop.json"
       <==> Trim(u) == u && c.apiVersion != Some(""))
  {
    ShopUrlsAgree(u, ProbeApiVersion(c), s.credentials.apiVersion);
    ProbeAndSyncApiVersion(c);
  }

  /**
   * The probe of `createStore` sends the request's access token and the order
   * fetch of `syncStoreOrders` the stored, trimmed one: the two headers agree exactly when the token was sent
   * already trimmed.
   */
  lemma ProbeAndSyncToken(u: string, c: RawCredentials, s: Store)
    ensures s.credentials == CastCredentials(c) ==>
      (ShopifyProbe(u, c).headers == ShopifyOrdersRequest(s).headers
       <==> TrimOption(c.accessToken) == c.accessToken)
  {
    if s.credentials == CastCredentials(c) && ShopifyProbe(u, c).headers == ShopifyOrdersRequest(s).headers {
      assert OptText(c.accessToken) == OptText(TrimOption(c.accessToken));
    }
  }

  /**
   * The WooCommerce probe of `createStore` (the request's URL as sent) and the
   * order fetch of `syncStoreOrders` (the stored, trimmed URL) address the same REST API root exactly when the
   * request's URL was already trimmed.
   */
  lemma WooProbeAndSyncUrls(u: string, c: RawCredentials, s: Store)
    ensures s.storeUrl == Trim(u) ==>
      (WooProbe(u, c).url == WooApiBase(s.storeUrl) + "/system_status" <==> Trim(u) == u)
  {
    var a := "/wp-json/wc/v3/system_status";
    assert WooProbe(u, c).url == u + a;
    assert WooApiBase(Trim(u)) + "/system_status" == Trim(u) + a;
    UntrimmedUrlDiffers(u, a, a);
  }

  /**
   * The probe of `createStore` authenticates with the request's key and secret,
   * the order fetch of `syncStoreOrders` with the stored, trimmed ones: the two credential pairs agree
   * exactly when both were sent already trimmed.
   */
  lemma WooProbeAndSyncKeys(u: string, c: RawCredentials, s: Store)
    ensures s.credentials == CastCredentials(c) ==>
      (WooProbe(u, c).query == WooOrdersRequest(s).query[..2]
       <==> TrimOption(c.consumerKey) == c.consumerKey && TrimOption(c.consumerSecret) == c.consumerSecret)
  {
    if s.credentials == CastCredentials(c) && WooProbe(u, c).query == WooOrdersRequest(s).query[..2] {
      assert WooProbe(u, c).query[0] == WooOrdersRequest(s).query[..2][0];
      assert WooProbe(u, c).query[1] == WooOrdersRequest(s).query[..2][1];
      assert OptText(c.consumerKey) == OptText(TrimOption(c.consumerKey));
      assert OptText(c.consumerSecret) == OptText(TrimOption(c.consumerSecret));
    }
  }

  /** The reply to a registration probe: no 2xx answer at all, or a 2xx answer with its body. */
  datatype ProbeReply = ProbeUnreachable | ProbeResponded(body: ProbeBody)

  /** A probe body: falsy (empty), or an object that does or does not carry `environment`. */
  datatype ProbeBody = FalsyBody | ObjectBody(hasEnvironment: bool)

  /**
   * The reply to the Shopify order fetch: the request rejected, a non-ok status, a
   * body that is not JSON, or a JSON body whose `orders` is an array (`Some`) or is
   * missing or not an array (`None`). A `None` entry is a null order.
   */
  datatype ShopifyReply =
    | ShopifyUnreachable
    | ShopifyNotOk
    | ShopifyUnparsable
    | ShopifyJson(orders: Option<seq<Option<ShopifyOrder>>>)

  /**
   * The reply to the WooCommerce order fetch: the request failed (non-2xx, timeout,
   * network), or a 2xx body that is an array of entries or is not an array.
   */
  datatype WooReply = WooFailed | WooData(body: WooBody)

  datatype WooBody = WooNotArray | WooArray(entries: seq<Option<WooOrder>>)

  /** What the upstreams answer to the order fetch of one sync; only the store's platform's is read. */
  datatype Replies = Replies(shopify: ShopifyReply, woo: WooReply)
}
